=== FILE: README.md ===
# Stock price prediction dashboard — positional core in Dafny

The dashboard (`app.py`) shows predicted against actual closing prices for
Mastercard or Visa over a chosen date range. It derives a feature table,
detrends and scales it, cuts it into 60-row windows, runs a trained sequence
model over the windows, adds the trend back, and plots the predicted and the
actual prices for the selected dates.

This project models the bookkeeping of that pipeline that decides which row
each number belongs to. The trained artifacts are treated as opaque
functions. The bookkeeping covers:

- **Windowing** (`Windowing`): `create_sequences`, loop for loop, including
  the `IndexError` it raises when the target is shorter than the features.
  It is checked against a recursive reference definition of the windows.
- **Offsets and alignment** (`Pipeline`): the `np.arange` offsets used to
  detrend and to add the trend back, the `iloc[seq_length:]` actual prices,
  the `pd.Series(..., index=...)` re-indexing and the whole `Forecast` run.
  The lemmas prove that prediction `k`, the target of window `k` and actual
  price `k` all refer to table row `seqLength + k`. A table of at most
  `seqLength` rows hands the trained predictor an empty batch, which it
  rejects; a table with no rows at all is already rejected by the trend
  model and the scaler before that. The run models all of these as one
  `EmptyBatch` failure.
- **Date filter** (`DateFilter`): the inclusive filter over the actual-price
  index and the label selection `.loc[...]`, as pandas defines it: all rows
  for each label, and `KeyError` for a missing label. On an index without
  repeated dates, the selection is proved equal to a plain "keep the rows
  whose date is in range" filter, and its row positions are given explicitly.
- **Instrument selection** (`Instruments`, `Pipeline.Dashboard`): the
  two-way choice of columns and artifacts by name. The artifacts are stored
  under the variable names they are loaded into, and the feature tables
  under the close and volume columns they are derived from. A run looks up
  exactly the names the selector assigns. The proofs show that a bundle is
  never mixed, and that a run gives the same result however the entries
  under the other instrument's names differ.

Dates are day ordinals (`int`) and prices are `real`. The window length is the
constant `SeqLength = 60`; the functions take it as a parameter.

## Model

| member | source | states |
|---|---|---|
| `Windowing.Windows` | app.py:73-74 | there are max(0, N − seqLength) windows, and window i is exactly rows [i, i + seqLength) of the features |
| `Windowing.CreateSequences` | app.py:71-76 | raises IndexError exactly when the table is longer than a window and the target is shorter than the features, and reports the first out-of-range index. Otherwise X equals the reference windows, y has one entry per window, and y[i] = target[i + seqLength], always in bounds |
| `Windowing.ConsecutiveWindowsOverlap` | app.py:74 | window i without its first row equals window i + 1 without its last row, so consecutive windows share seqLength − 1 rows |
| `Windowing.TargetRowFollowsWindow` | app.py:74-75 | the target row i + seqLength exists, and appending it to window i gives the contiguous rows [i, i + seqLength] |
| `Windowing.ShortTableHasNoWindows` | app.py:73 | there are no windows exactly when the table has at most seqLength rows |
| `Pipeline.Arange` | app.py:83 | `np.arange(lo, hi)` has max(0, hi − lo) elements, and element k is lo + k |
| `Pipeline.Detrended` | app.py:63-64 | the detrended close of row k is its close minus the trend at offset k, its own position |
| `Pipeline.PredictedPrices` | app.py:78-85 | there is one price per window; price k is the unscaled prediction for the window of scaled rows [k, k + seqLength) plus the trend at offset seqLength + k |
| `Pipeline.ActualPrices` | app.py:86 | `iloc[seqLength:]` holds max(0, N − seqLength) prices; price k is row seqLength + k's close under that row's date |
| `Pipeline.ReindexPairsPredictions` | app.py:85-93 | re-indexing the predicted prices onto the actual-price dates never raises, and pairs them one to one: row k is table row seqLength + k's date with prediction k |
| `Pipeline.Forecast` | app.py:78-93 | the run raises (empty batch to the predictor) exactly when the table has at most seqLength rows; otherwise it raises nothing and yields two well-formed series |
| `Pipeline.SequencesOf` | app.py:78 | the program's own call of create_sequences never raises. The target of window k is the scaled detrended close of row seqLength + k, detrended with the trend at offset seqLength + k |
| `Pipeline.OffsetsCoincide` | app.py:83-84 | the add-back offsets are [seqLength, N) when N > seqLength and empty otherwise; add-back offset k equals the detrending offset of row seqLength + k |
| `Pipeline.PredictionAlignment` | app.py:63-86 | predictions and actual prices have equal length. For each k, the window, the window's target, the trend used for the prediction (add-back offset k = seqLength + k) and the actual price all refer to row seqLength + k |
| `Pipeline.ActualIndexIncreasing` | app.py:86 | the date index of the actual prices is strictly increasing when the table's is |
| `Pipeline.ActualIndexDistinct` | app.py:86 | the date index of the actual prices has no repeated date when the table's has none |
| `Pipeline.ForecastIsFilteredSeries` | app.py:89-93 | on an index without repeated dates, a table longer than a window gives the actual prices and the re-indexed predictions, each restricted to [start, end]; a shorter one raises the empty-batch failure |
| `Pipeline.ForecastAligned` | app.py:83-93 | whenever the run succeeds, both plotted series have the same dates. Point k is table row seqLength + j for the k-th kept position j, and pairs that row's close with prediction j. Every date lies in range, and every in-range date from row seqLength on appears |
| `Pipeline.ForecastFilterIdempotent` | app.py:89-93 | whenever the run succeeds, filtering the plotted series again with the same dates leaves them unchanged |
| `Pipeline.OneRowPastTheWindow` | app.py:73-86 | a table of 61 rows gives one window and one prediction, aligned to the 61st date, that uses the first 60 scaled rows and the trend at offset 60 |
| `Pipeline.RangeBeforeFirstDate` | app.py:79-93 | a range ending before the first date gives two empty series without raising when the table is longer than a window, and the empty-batch failure otherwise |
| `Pipeline.LoadedHoldsSelection` | app.py:15-23 | once all eight artifacts are loaded and both feature tables are built, every artifact and the table the selector names for any option are present |
| `Pipeline.Dashboard` | app.py:35-93 | an interaction runs on the table and the artifacts stored under the names the selector assigns. It yields a chart exactly when that table is longer than the window, and otherwise fails with the empty-batch error |
| `Pipeline.SelectedNamesAreOwn` | app.py:35-50 | each of the six names the selector assigns carries the selected instrument's suffix |
| `Pipeline.DashboardNeverCrossesInstruments` | app.py:35-50 | two stores and two sets of tables that agree on every name carrying the selected instrument's suffix give the same run, whatever they hold under the other instrument's names |
| `Instruments.Select` | app.py:35-50 | exactly "Mastercard" selects the Mastercard bundle and any other value the Visa bundle. The bundle reads that instrument's Close and Volume input columns, and takes all four of its loaded artifacts, each read from the file of its own role. Every selected name carries that instrument's suffix |
| `Instruments.SelectsOwnItemsIsUnique` | app.py:35-50 | only one bundle selects an instrument's own columns and artifacts in their roles: the one the program assigns, so no role can be swapped or repeated |
| `Instruments.LoadedFromFile` | app.py:15-23 | each artifact file is loaded into exactly one variable: the one the program names for that role and instrument |
| `Instruments.ArtifactsBySuffix` | app.py:15-23 | the loaded artifacts carrying an instrument's suffix are exactly its four artifacts |
| `Instruments.SelectionNeverMixed` | app.py:35-50 | no selected item carries the suffix of the instrument not selected, and a bundle is all-Mastercard exactly when it is not all-Visa |
| `Instruments.SelectionsDisjoint` | app.py:35-50 | the Mastercard selection and any other option's selection share no column or artifact name |
| `DateFilter.FilterIndex` | app.py:89-90 | a date is kept exactly when it is in the index and start ≤ date ≤ end |
| `DateFilter.FilterIsSubsequence` | app.py:89-90 | the filtered index is a subsequence of the index: nothing added, order kept |
| `DateFilter.FilterKeepsIncreasing` | app.py:89-90 | filtering a strictly increasing index gives a strictly increasing index |
| `DateFilter.FilterIdempotent` | app.py:89-90 | filtering twice with the same bounds equals filtering once |
| `DateFilter.FilterOutsideIsEmpty` | app.py:89-90 | the filter is empty when start > end or when no date lies in the range |
| `DateFilter.KeptPositions` | app.py:89-90 | each kept position is within the index, and the date there is in range |
| `DateFilter.KeptPositionsComplete` | app.py:89-90 | every position whose date is in range is kept |
| `DateFilter.KeptPositionsIncreasing` | app.py:89-90 | the kept positions are strictly increasing |
| `DateFilter.FilterSeries` | app.py:92-93 | the filtered series is well formed, its index is the filtered index, and each row is a (date, value) row of the original |
| `DateFilter.Loc` | app.py:92-93 | `.loc[labels]` succeeds exactly when every label is in the index; otherwise it raises KeyError naming a missing label. On success the returned dates and the labels are the same set of dates, and each row returned is a row of the series |
| `DateFilter.OneHitPerLabel` | app.py:92-93 | on an index without repeated dates, one label the index holds selects exactly that one date |
| `DateFilter.LocInLabelOrder` | app.py:92-93 | on an index without repeated dates, a successful `.loc[labels]` returns exactly one row per label, in label order: its date index equals the labels |
| `DateFilter.NoHitOutsideIndex` | app.py:92 | a label the index does not hold matches no row |
| `DateFilter.LocSkipsFirstRow` | app.py:92 | a leading row whose date is not among the labels does not change `.loc` |
| `DateFilter.LocOfFilteredIndex` | app.py:89-93 | on an index without repeated dates, `.loc` of the filtered index equals the filtered series |
| `DateFilter.FilterSeriesAtKeptPositions` | app.py:89-93 | row k of the filtered series is the original row at the k-th kept position, both date and value |
| `DateFilter.FilterSeriesIdempotent` | app.py:89-93 | filtering a series twice with the same bounds equals filtering it once |

## Left out

- Loading the CSV and parsing dates (app.py:11-12), and loading the artifacts with joblib and Keras (app.py:15-23). These are file I/O and foreign libraries. The model starts from the feature tables, keyed by their close and volume columns, and an `ArtifactStore` of functions keyed by variable name.
- Streamlit widgets and matplotlib plotting (app.py:26-30, 96-104). These are UI. The chart is the pair of series that would be plotted.
- Feature engineering (app.py:53-60): `pct_change`, rolling statistics, `bfill` and `dropna`. These are floating-point pandas numerics. The feature table is an arbitrary series of `FeatureRow`s.
- The numbers computed by the scalers, the trend model and the sequence predictor (app.py:64, 67-68, 79-80, 84). These come from opaque trained artifacts. They are uninterpreted functions: scalers act row by row, the trend maps an offset to a price, and the predictor maps one window to one value. No scaler round trip is claimed.
- PredictedPrices: treats the predictor and the inverse scaler as total maps, so with no windows it is an empty sequence. `Forecast` models what the libraries do with that empty batch: the run fails with `EmptyBatch`. The several library exceptions are collapsed into that one error: Keras at app.py:79 and scikit-learn at app.py:80 and 84 when there are no windows, and, for a table with no rows at all, scikit-learn already at app.py:64 (the trend model) and app.py:67 (the feature scaler).
- Loc: its own contract fixes the set of returned dates, not their order or the number of rows per label. Order and count are stated by `LocInLabelOrder` and `LocOfFilteredIndex` for an index without repeated dates. With repeated dates, pandas returns every row of a label; the model does the same, but no lemma states it. For a missing label, pandas reports every missing label in its message. The model reports one missing label. No missing label occurs on the path the dashboard takes.
- Windowing.CreateSequences: the window length is a `nat`. Python's slicing semantics for a negative `seq_length` are not modelled, since the program always uses 60.
- Timezone handling and the `pd.to_datetime` conversion of the picked dates. Dates are day ordinals.
- The lemmas about the filtered chart assume a date index without repeated dates: one row per trading day. For an index with repeated dates, only `Forecast`'s contract on when it raises is stated. `RangeBeforeFirstDate` also assumes the index is strictly increasing, so that its first date is its earliest.

=== FILE: date_filter.dfy ===
/** The inclusive date-range filter of the dashboard and the label-based
    selection (`.loc`) that applies it to the actual and predicted series. */
module DateFilter {
  import opened Results
  import opened TimeSeries

  /** The dates of `index` inside `[startDate, endDate]`, in index order. */
  function FilterIndex(index: seq<Date>, startDate: Date, endDate: Date): (r: seq<Date>)
    ensures forall d :: d in r <==> d in index && startDate <= d <= endDate
    ensures |r| <= |index|
  {
    if index == [] then []
    else if startDate <= index[0] <= endDate then [index[0]] + FilterIndex(index[1..], startDate, endDate)
    else FilterIndex(index[1..], startDate, endDate)
  }

  /** The (date, value) pairs of a series, in order. */
  function Pairs<V>(s: Series<V>): (ps: seq<(Date, V)>)
    requires s.Valid()
    ensures |ps| == s.Length()
  {
    seq(|s.index|, i requires 0 <= i < |s.index| => (s.index[i], s.values[i]))
  }

  /** The rows of `s` whose date lies in `[startDate, endDate]`, in order:
      the reference meaning of selecting a filtered index from a series. */
  function FilterSeries<V>(s: Series<V>, startDate: Date, endDate: Date): (r: Series<V>)
    requires s.Valid()
    ensures r.Valid()
    ensures r.index == FilterIndex(s.index, startDate, endDate)
    ensures forall k :: 0 <= k < |r.index| ==> (r.index[k], r.values[k]) in Pairs(s)
    decreases |s.index|
  {
    if s.index == [] then Series([], [])
    else
      var tail := Series(s.index[1..], s.values[1..]);
      var rest := FilterSeries(tail, startDate, endDate);
      assert forall p :: p in Pairs(tail) ==> p in Pairs(s) by {
        forall p | p in Pairs(tail) ensures p in Pairs(s) {
          var i :| 0 <= i < |Pairs(tail)| && Pairs(tail)[i] == p;
          assert Pairs(s)[i + 1] == p;
        }
      }
      if startDate <= s.index[0] <= endDate then
        assert Pairs(s)[0] == (s.index[0], s.values[0]);
        Series([s.index[0]] + rest.index, [s.values[0]] + rest.values)
      else rest
  }

  /** Every position moved one row further down. */
  function Shift(ps: seq<nat>): (qs: seq<nat>)
    ensures |qs| == |ps|
    ensures forall k :: 0 <= k < |qs| ==> qs[k] == ps[k] + 1
  {
    seq(|ps|, k requires 0 <= k < |ps| => ps[k] + 1)
  }

  /** The positions of `index` whose date lies in `[startDate, endDate]`,
      in increasing order. */
  function KeptPositions(index: seq<Date>, startDate: Date, endDate: Date): (ps: seq<nat>)
    ensures forall k :: 0 <= k < |ps| ==> ps[k] < |index| && startDate <= index[ps[k]] <= endDate
    decreases |index|
  {
    if index == [] then []
    else
      var inner := KeptPositions(index[1..], startDate, endDate);
      var rest := Shift(inner);
      assert forall k :: 0 <= k < |rest| ==> rest[k] < |index| && index[rest[k]] == index[1..][inner[k]];
      if startDate <= index[0] <= endDate then [0] + rest else rest
  }

  /** No in-range position is missed. */
  lemma {:induction false} KeptPositionsComplete(index: seq<Date>, startDate: Date, endDate: Date, j: nat)
    requires j < |index| && startDate <= index[j] <= endDate
    ensures j in KeptPositions(index, startDate, endDate)
    decreases |index|
  {
    if j > 0 {
      KeptPositionsComplete(index[1..], startDate, endDate, j - 1);
      var inner := KeptPositions(index[1..], startDate, endDate);
      var k :| 0 <= k < |inner| && inner[k] == j - 1;
      assert Shift(inner)[k] == j;
    }
  }

  /** The kept positions are strictly increasing, so each is kept once and
      the index order is preserved. */
  lemma {:induction false} KeptPositionsIncreasing(index: seq<Date>, startDate: Date, endDate: Date)
    ensures forall k, l :: 0 <= k < l < |KeptPositions(index, startDate, endDate)| ==>
              KeptPositions(index, startDate, endDate)[k] < KeptPositions(index, startDate, endDate)[l]
    decreases |index|
  {
    if index != [] {
      KeptPositionsIncreasing(index[1..], startDate, endDate);
    }
  }

  /** `s.loc[labels]`: for every label in turn, all rows carrying that label;
      a label the index does not hold raises `KeyError`. */
  function Loc<V>(s: Series<V>, labels: seq<Date>): (r: Result<Series<V>>)
    requires s.Valid()
    ensures r.Success? <==> forall d :: d in labels ==> d in s.index
    ensures r.Failure? ==> r.error.KeyError? && r.error.key in labels && r.error.key !in s.index
    ensures r.Success? ==> r.value.Valid()
    ensures r.Success? ==> forall d :: d in r.value.index <==> d in labels
    ensures r.Success? ==> forall k :: 0 <= k < |r.value.index| ==> (r.value.index[k], r.value.values[k]) in Pairs(s)
    decreases |labels|
  {
    if labels == [] then Success(Series([], []))
    else
      var hit := FilterSeries(s, labels[0], labels[0]);
      if hit.index == [] then
        assert labels[0] !in hit.index;
        Failure(KeyError(labels[0]))
      else
        assert hit.index[0] in hit.index;
        var rest :- Loc(s, labels[1..]);
        Success(Series(hit.index + rest.index, hit.values + rest.values))
  }

  /** The filtered index is a subsequence of the index: nothing is added and
      the order is kept. */
  lemma {:induction false} FilterIsSubsequence(index: seq<Date>, startDate: Date, endDate: Date)
    ensures IsSubsequence(FilterIndex(index, startDate, endDate), index)
    decreases |index|
  {
    if index != [] {
      FilterIsSubsequence(index[1..], startDate, endDate);
    }
  }

  /** Filtering a date index in increasing order yields an increasing index. */
  lemma {:induction false} FilterKeepsIncreasing(index: seq<Date>, startDate: Date, endDate: Date)
    requires StrictlyIncreasing(index)
    ensures StrictlyIncreasing(FilterIndex(index, startDate, endDate))
    decreases |index|
  {
    if index != [] {
      FilterKeepsIncreasing(index[1..], startDate, endDate);
      var rest := FilterIndex(index[1..], startDate, endDate);
      forall d | d in rest ensures index[0] < d {
        var j :| 0 <= j < |index[1..]| && index[1..][j] == d;
        assert index[j + 1] == d;
      }
      if startDate <= index[0] <= endDate {
        var r := [index[0]] + rest;
        forall i, j | 0 <= i < j < |r| ensures r[i] < r[j] {
          assert r[j] == rest[j - 1] && rest[j - 1] in rest;
          if i > 0 {
            assert r[i] == rest[i - 1];
          }
        }
      }
    }
  }

  /** Filtering twice with the same bounds is filtering once. */
  lemma {:induction false} FilterIdempotent(index: seq<Date>, startDate: Date, endDate: Date)
    ensures FilterIndex(FilterIndex(index, startDate, endDate), startDate, endDate)
         == FilterIndex(index, startDate, endDate)
    decreases |index|
  {
    if index != [] {
      FilterIdempotent(index[1..], startDate, endDate);
      var once := FilterIndex(index, startDate, endDate);
      if startDate <= index[0] <= endDate {
        assert once[1..] == FilterIndex(index[1..], startDate, endDate);
      }
    }
  }

  /** An empty or reversed range, or one that misses every date, selects
      nothing. */
  lemma {:induction false} FilterOutsideIsEmpty(index: seq<Date>, startDate: Date, endDate: Date)
    requires startDate > endDate || forall d :: d in index ==> d < startDate || d > endDate
    ensures FilterIndex(index, startDate, endDate) == []
    decreases |index|
  {
    if index != [] {
      assert index[0] in index;
      assert forall d :: d in index[1..] ==> d in index;
      FilterOutsideIsEmpty(index[1..], startDate, endDate);
    }
  }

  /** Selecting the rows of a series with one label that its index does not
      hold finds nothing. */
  lemma NoHitOutsideIndex<V>(s: Series<V>, d: Date)
    requires s.Valid()
    requires d !in s.index
    ensures FilterSeries(s, d, d).index == []
  {
    FilterOutsideIsEmpty(s.index, d, d);
  }

  /** On an index without repeated dates, a single label the index holds
      selects exactly one date. */
  lemma {:induction false} OneHitPerLabel(index: seq<Date>, d: Date)
    requires Distinct(index)
    requires d in index
    ensures FilterIndex(index, d, d) == [d]
    decreases |index|
  {
    var tail := index[1..];
    assert Distinct(tail) by {
      forall i, j | 0 <= i < j < |tail| ensures tail[i] != tail[j] {
        assert tail[i] == index[i + 1] && tail[j] == index[j + 1];
      }
    }
    if index[0] == d {
      assert d !in tail by {
        forall i | 0 <= i < |tail| ensures tail[i] != d {
          assert tail[i] == index[i + 1];
        }
      }
      FilterOutsideIsEmpty(tail, d, d);
    } else {
      assert d in tail;
      OneHitPerLabel(tail, d);
    }
  }

  /** On an index without repeated dates, a successful `.loc[labels]`
      returns one row per label, in the order of the labels. */
  lemma {:induction false} LocInLabelOrder<V>(s: Series<V>, labels: seq<Date>)
    requires s.Valid() && Distinct(s.index)
    requires Loc(s, labels).Success?
    ensures Loc(s, labels).value.index == labels
    decreases |labels|
  {
    if labels != [] {
      assert labels[0] in labels;
      OneHitPerLabel(s.index, labels[0]);
      LocInLabelOrder(s, labels[1..]);
      assert labels == [labels[0]] + labels[1..];
    }
  }

  /** A series with one more row in front, whose date none of `labels` is,
      answers `.loc[labels]` exactly as the shorter series does. */
  lemma {:induction false} LocSkipsFirstRow<V>(s: Series<V>, labels: seq<Date>)
    requires s.Valid() && s.index != []
    requires s.index[0] !in labels
    ensures Loc(s, labels) == Loc(Series(s.index[1..], s.values[1..]), labels)
    decreases |labels|
  {
    if labels != [] {
      var tail := Series(s.index[1..], s.values[1..]);
      assert FilterSeries(s, labels[0], labels[0]) == FilterSeries(tail, labels[0], labels[0]);
      LocSkipsFirstRow(s, labels[1..]);
    }
  }

  /** On an index without repeated dates, `.loc` of the filtered index is
      exactly the filtered series: every kept date is found once, with its
      own value. */
  lemma {:induction false} LocOfFilteredIndex<V>(s: Series<V>, startDate: Date, endDate: Date)
    requires s.Valid()
    requires Distinct(s.index)
    ensures Loc(s, FilterIndex(s.index, startDate, endDate)) == Success(FilterSeries(s, startDate, endDate))
    decreases |s.index|
  {
    if s.index != [] {
      var tail := Series(s.index[1..], s.values[1..]);
      var h := s.index[0];
      assert Distinct(tail.index) by {
        forall i, j | 0 <= i < j < |tail.index| ensures tail.index[i] != tail.index[j] {
          assert tail.index[i] == s.index[i + 1] && tail.index[j] == s.index[j + 1];
        }
      }
      LocOfFilteredIndex(tail, startDate, endDate);
      var labels := FilterIndex(tail.index, startDate, endDate);
      assert h !in tail.index by {
        forall i | 0 <= i < |tail.index| ensures tail.index[i] != h {
          assert tail.index[i] == s.index[i + 1];
        }
      }
      LocSkipsFirstRow(s, labels);
      if startDate <= h <= endDate {
        NoHitOutsideIndex(tail, h);
        assert FilterSeries(s, h, h) == Series([h], [s.values[0]]);
        assert FilterIndex(s.index, startDate, endDate) == [h] + labels;
        assert ([h] + labels)[1..] == labels;
      }
    }
  }

  /** One step of `KeptPositions`: the first position if its date is in
      range, then the positions kept in the rest, moved one row down. */
  lemma KeptPositionsStep(index: seq<Date>, startDate: Date, endDate: Date)
    requires index != []
    ensures KeptPositions(index, startDate, endDate)
            == (if startDate <= index[0] <= endDate then [0] else []) + Shift(KeptPositions(index[1..], startDate, endDate))
  {
  }

  /** One step of `FilterSeries`: the first row if its date is in range,
      then the filtered rest. */
  lemma FilterSeriesStep<V>(s: Series<V>, startDate: Date, endDate: Date)
    requires s.Valid() && s.index != []
    ensures var rest := FilterSeries(Series(s.index[1..], s.values[1..]), startDate, endDate);
            var keep := startDate <= s.index[0] <= endDate;
            && FilterSeries(s, startDate, endDate).index == (if keep then [s.index[0]] else []) + rest.index
            && FilterSeries(s, startDate, endDate).values == (if keep then [s.values[0]] else []) + rest.values
  {
  }

  /** Reading rows at positions: if the rest of a table, read at `inner`,
      gives `restIndex` and `restValues`, then the whole table read at the
      shifted positions, optionally after position 0, gives the same rows,
      optionally after the first. */
  lemma ReadAtShiftedPositions<V>(index: seq<Date>, values: seq<V>, restIndex: seq<Date>, restValues: seq<V>,
                                  inner: seq<nat>, keep: bool)
    requires |index| == |values| > 0
    requires |restIndex| == |restValues| == |inner|
    requires forall k :: 0 <= k < |inner| ==>
               inner[k] < |index| - 1 && restIndex[k] == index[1..][inner[k]] && restValues[k] == values[1..][inner[k]]
    ensures var ps := (if keep then [0] else []) + Shift(inner);
            var rIndex := (if keep then [index[0]] else []) + restIndex;
            var rValues := (if keep then [values[0]] else []) + restValues;
            && |rIndex| == |ps|
            && forall k :: 0 <= k < |ps| ==> ps[k] < |index| && rIndex[k] == index[ps[k]] && rValues[k] == values[ps[k]]
  {
    var d := if keep then 1 else 0;
    var ps := (if keep then [0] else []) + Shift(inner);
    var rIndex := (if keep then [index[0]] else []) + restIndex;
    var rValues := (if keep then [values[0]] else []) + restValues;
    forall k | d <= k < |ps|
      ensures ps[k] < |index| && rIndex[k] == index[ps[k]] && rValues[k] == values[ps[k]]
    {
      assert ps[k] == inner[k - d] + 1;
      assert rIndex[k] == restIndex[k - d] && rValues[k] == restValues[k - d];
    }
  }

  /** The filtered series is the series read at the kept positions: its k-th
      row is row `KeptPositions(..)[k]` of the original, date and value. */
  lemma {:induction false} FilterSeriesAtKeptPositions<V>(s: Series<V>, startDate: Date, endDate: Date)
    requires s.Valid()
    ensures |FilterSeries(s, startDate, endDate).index| == |KeptPositions(s.index, startDate, endDate)|
    ensures forall k :: 0 <= k < |KeptPositions(s.index, startDate, endDate)| ==>
              var j := KeptPositions(s.index, startDate, endDate)[k];
              FilterSeries(s, startDate, endDate).index[k] == s.index[j]
              && FilterSeries(s, startDate, endDate).values[k] == s.values[j]
    decreases |s.index|
  {
    if s.index != [] {
      var tail := Series(s.index[1..], s.values[1..]);
      FilterSeriesAtKeptPositions(tail, startDate, endDate);
      KeptPositionsStep(s.index, startDate, endDate);
      FilterSeriesStep(s, startDate, endDate);
      var rest := FilterSeries(tail, startDate, endDate);
      ReadAtShiftedPositions(s.index, s.values, rest.index, rest.values,
                             KeptPositions(tail.index, startDate, endDate), startDate <= s.index[0] <= endDate);
    }
  }

  /** Filtering a series twice with the same bounds is filtering it once. */
  lemma {:induction false} FilterSeriesIdempotent<V>(s: Series<V>, startDate: Date, endDate: Date)
    requires s.Valid()
    ensures FilterSeries(FilterSeries(s, startDate, endDate), startDate, endDate) == FilterSeries(s, startDate, endDate)
    decreases |s.index|
  {
    if s.index != [] {
      var tail := Series(s.index[1..], s.values[1..]);
      FilterSeriesIdempotent(tail, startDate, endDate);
      var once := FilterSeries(s, startDate, endDate);
      if startDate <= s.index[0] <= endDate {
        assert Series(once.index[1..], once.values[1..]) == FilterSeries(tail, startDate, endDate);
      }
    }
  }
}

=== FILE: instruments.dfy ===
/** Instrument selection: the dashboard's selector picks the price columns
    and the four trained artifacts of one instrument, by the names the
    program gives them. */
module Instruments {

  datatype Instrument = Mastercard | Visa

  /** The column names and artifact variables one run works with. */
  datatype Bundle = Bundle(
    instrument: Instrument,
    closeColumn: string,
    volumeColumn: string,
    scaler: string,           // feature scaler
    scalerDetrended: string,  // scaler of the detrended close
    trendModel: string,       // trend estimator over row offsets
    model: string)            // sequence predictor

  /** Every name a bundle selects. */
  function Items(b: Bundle): seq<string> {
    [b.closeColumn, b.volumeColumn, b.scaler, b.scalerDetrended, b.trendModel, b.model]
  }

  /** `name` ends in `_` followed by `tag`, in either case. */
  predicate HasSuffix(name: string, tag: char, upper: char) {
    |name| >= 2 && name[|name| - 2] == '_' && (name[|name| - 1] == tag || name[|name| - 1] == upper)
  }

  /** The price and volume columns of the input table. */
  const InputColumns: seq<string> := ["Close_M", "Volume_M", "Close_V", "Volume_V"]

  /** The suffix of an instrument's columns. */
  function ColumnTag(i: Instrument): string {
    match i
    case Mastercard => "_M"
    case Visa => "_V"
  }

  /** `name` carries the suffix of instrument `i`. */
  predicate OfInstrument(name: string, i: Instrument) {
    match i
    case Mastercard => HasSuffix(name, 'm', 'M')
    case Visa => HasSuffix(name, 'v', 'V')
  }

  /** The artifact variables the program loads at start-up, each mapped to
      the file it is read from. */
  const LoadedArtifacts: map<string, string> := map[
    "model_m" := "lstm_model_mastercard.h5",
    "model_v" := "lstm_model_visa.h5",
    "scaler_m" := "scaler_mastercard.pkl",
    "scaler_v" := "scaler_visa.pkl",
    "scaler_detrended_m" := "scaler_detrended_mastercard.pkl",
    "scaler_detrended_v" := "scaler_detrended_visa.pkl",
    "trend_model_m" := "trend_model_mastercard.pkl",
    "trend_model_v" := "trend_model_visa.pkl"]

  /** The four artifact variables of one instrument. */
  function ArtifactNames(i: Instrument): set<string> {
    match i
    case Mastercard => {"scaler_m", "scaler_detrended_m", "trend_model_m", "model_m"}
    case Visa => {"scaler_v", "scaler_detrended_v", "trend_model_v", "model_v"}
  }

  /** The loaded artifacts carrying an instrument's suffix are exactly its
      four artifacts. */
  lemma ArtifactsBySuffix(i: Instrument)
    ensures (set name | name in LoadedArtifacts && OfInstrument(name, i)) == ArtifactNames(i)
  {
    var bySuffix := set name | name in LoadedArtifacts && OfInstrument(name, i);
    assert LoadedArtifacts.Keys == ArtifactNames(Mastercard) + ArtifactNames(Visa);
    forall name | name in ArtifactNames(Mastercard) ensures OfInstrument(name, Mastercard) && !OfInstrument(name, Visa) {
    }
    forall name | name in ArtifactNames(Visa) ensures OfInstrument(name, Visa) && !OfInstrument(name, Mastercard) {
    }
    assert bySuffix == ArtifactNames(i);
  }

  /** The columns and artifacts the program assigns for instrument `i`. */
  function BundleOf(i: Instrument): Bundle {
    match i
    case Mastercard =>
      Bundle(Mastercard, "Close_M", "Volume_M", "scaler_m", "scaler_detrended_m", "trend_model_m", "model_m")
    case Visa =>
      Bundle(Visa, "Close_V", "Volume_V", "scaler_v", "scaler_detrended_v", "trend_model_v", "model_v")
  }

  /** The roles of the four artifacts. */
  datatype Role = FeatureScaler | DetrendedScaler | TrendEstimator | Predictor

  /** The file the artifact of a role is read from, per instrument. */
  function FileOf(r: Role, i: Instrument): string {
    match (r, i)
    case (FeatureScaler, Mastercard) => "scaler_mastercard.pkl"
    case (FeatureScaler, Visa) => "scaler_visa.pkl"
    case (DetrendedScaler, Mastercard) => "scaler_detrended_mastercard.pkl"
    case (DetrendedScaler, Visa) => "scaler_detrended_visa.pkl"
    case (TrendEstimator, Mastercard) => "trend_model_mastercard.pkl"
    case (TrendEstimator, Visa) => "trend_model_visa.pkl"
    case (Predictor, Mastercard) => "lstm_model_mastercard.h5"
    case (Predictor, Visa) => "lstm_model_visa.h5"
  }

  /** `b` reads instrument `i`'s own close and volume columns. */
  predicate UsesOwnColumns(b: Bundle, i: Instrument) {
    && b.closeColumn == "Close" + ColumnTag(i) && b.closeColumn in InputColumns
    && b.volumeColumn == "Volume" + ColumnTag(i) && b.volumeColumn in InputColumns
  }

  /** Each artifact of `b` is a loaded one, read from the file of its own role
      for instrument `i`. */
  predicate UsesOwnArtifacts(b: Bundle, i: Instrument) {
    && b.scaler in LoadedArtifacts && LoadedArtifacts[b.scaler] == FileOf(FeatureScaler, i)
    && b.scalerDetrended in LoadedArtifacts && LoadedArtifacts[b.scalerDetrended] == FileOf(DetrendedScaler, i)
    && b.trendModel in LoadedArtifacts && LoadedArtifacts[b.trendModel] == FileOf(TrendEstimator, i)
    && b.model in LoadedArtifacts && LoadedArtifacts[b.model] == FileOf(Predictor, i)
  }

  /** The artifacts of `b` are all the loaded artifacts with `i`'s suffix. */
  predicate TakesAllOwnArtifacts(b: Bundle, i: Instrument) {
    {b.scaler, b.scalerDetrended, b.trendModel, b.model}
    == set name | name in LoadedArtifacts && OfInstrument(name, i)
  }

  /** Every name in `b` carries `i`'s suffix. */
  predicate AllOf(b: Bundle, i: Instrument) {
    forall k :: 0 <= k < |Items(b)| ==> OfInstrument(Items(b)[k], i)
  }

  /** `b` uses instrument `i`'s own columns and all four of its loaded
      artifacts, each in its role, and nothing of the other instrument. */
  predicate SelectsOwnItems(b: Bundle, i: Instrument) {
    && b.instrument == i
    && UsesOwnColumns(b, i)
    && UsesOwnArtifacts(b, i)
    && TakesAllOwnArtifacts(b, i)
    && AllOf(b, i)
  }

  lemma BundleOfUsesOwnColumns(i: Instrument)
    ensures UsesOwnColumns(BundleOf(i), i)
  {
    var b := BundleOf(i);
    var k0 := if i == Mastercard then 0 else 2;
    assert InputColumns[k0] == b.closeColumn && InputColumns[k0 + 1] == b.volumeColumn;
  }

  lemma BundleOfUsesOwnArtifacts(i: Instrument)
    ensures UsesOwnArtifacts(BundleOf(i), i)
  {
  }

  lemma BundleOfTakesAllOwnArtifacts(i: Instrument)
    ensures TakesAllOwnArtifacts(BundleOf(i), i)
  {
    ArtifactsBySuffix(i);
    var b := BundleOf(i);
    assert {b.scaler, b.scalerDetrended, b.trendModel, b.model} == ArtifactNames(i);
  }

  lemma BundleOfAllOf(i: Instrument)
    ensures AllOf(BundleOf(i), i)
  {
    var b := BundleOf(i);
    forall k | 0 <= k < |Items(b)| ensures OfInstrument(Items(b)[k], i) {
    }
  }

  lemma BundleOfSelectsOwnItems(i: Instrument)
    ensures SelectsOwnItems(BundleOf(i), i)
  {
    BundleOfUsesOwnColumns(i);
    BundleOfUsesOwnArtifacts(i);
    BundleOfTakesAllOwnArtifacts(i);
    BundleOfAllOf(i);
  }

  /** The variable the program loads a role's artifact into, per instrument. */
  function VariableOf(r: Role, i: Instrument): string {
    match r
    case FeatureScaler => BundleOf(i).scaler
    case DetrendedScaler => BundleOf(i).scalerDetrended
    case TrendEstimator => BundleOf(i).trendModel
    case Predictor => BundleOf(i).model
  }

  /** Each artifact file is loaded into exactly one variable. */
  lemma LoadedFromFile(name: string, r: Role, i: Instrument)
    requires name in LoadedArtifacts && LoadedArtifacts[name] == FileOf(r, i)
    ensures name == VariableOf(r, i)
  {
    assert LoadedArtifacts.Keys == ArtifactNames(Mastercard) + ArtifactNames(Visa);
  }

  /** The contract pins the bundle down: the only bundle that selects an
      instrument's own items is the one the program assigns. */
  lemma SelectsOwnItemsIsUnique(b: Bundle, i: Instrument)
    requires SelectsOwnItems(b, i)
    ensures b == BundleOf(i)
  {
    LoadedFromFile(b.scaler, FeatureScaler, i);
    LoadedFromFile(b.scalerDetrended, DetrendedScaler, i);
    LoadedFromFile(b.trendModel, TrendEstimator, i);
    LoadedFromFile(b.model, Predictor, i);
  }

  /** The selector: exactly the option "Mastercard" chooses the Mastercard
      bundle, every other value the Visa bundle. Either way the bundle holds
      that instrument's columns and its four artifacts in their roles, and
      every name in it carries that instrument's suffix. */
  function Select(option: string): (b: Bundle)
    ensures b.instrument == Mastercard <==> option == "Mastercard"
    ensures SelectsOwnItems(b, b.instrument)
    ensures option == "Mastercard" ==> AllOf(b, Mastercard)
    ensures option != "Mastercard" ==> AllOf(b, Visa)
  {
    var i := if option == "Mastercard" then Mastercard else Visa;
    BundleOfSelectsOwnItems(i);
    BundleOf(i)
  }

  /** The instrument the selector did not pick. */
  function Other(i: Instrument): Instrument {
    match i
    case Mastercard => Visa
    case Visa => Mastercard
  }

  /** A bundle is never mixed: no name of it carries the other instrument's
      suffix, and it is all-Mastercard exactly when it is not all-Visa. */
  lemma SelectionNeverMixed(option: string)
    ensures forall k :: 0 <= k < |Items(Select(option))| ==>
              !OfInstrument(Items(Select(option))[k], Other(Select(option).instrument))
    ensures AllOf(Select(option), Mastercard) <==> !AllOf(Select(option), Visa)
  {
    var b := Select(option);
    forall k | 0 <= k < |Items(b)| ensures !OfInstrument(Items(b)[k], Other(b.instrument)) {
      assert OfInstrument(Items(b)[k], b.instrument);
    }
    assert HasSuffix(Items(b)[0], 'm', 'M') <==> !HasSuffix(Items(b)[0], 'v', 'V');
  }

  /** The two instruments' selections share no name: Mastercard data never
      meets a Visa artifact and the reverse. */
  lemma SelectionsDisjoint(option: string)
    requires option != "Mastercard"
    ensures forall k, l :: 0 <= k < |Items(Select("Mastercard"))| && 0 <= l < |Items(Select(option))| ==>
              Items(Select("Mastercard"))[k] != Items(Select(option))[l]
  {
    var m := Select("Mastercard");
    var v := Select(option);
    forall k, l | 0 <= k < |Items(m)| && 0 <= l < |Items(v)| ensures Items(m)[k] != Items(v)[l] {
      var a := Items(m)[k];
      var c := Items(v)[l];
      assert a[|a| - 1] != c[|c| - 1];
    }
  }
}

=== FILE: pipeline.dfy ===
/** The prediction pipeline of the dashboard, from the feature table to the
    two filtered series it plots. The trained artifacts are opaque: they are
    function values here, and only the row and offset bookkeeping around
    them is modelled. */
module Pipeline {
  import opened Results
  import opened TimeSeries
  import opened Windowing
  import opened DateFilter
  import opened Instruments

  /** One row of the feature table: close, volume, smoothed volatility,
      20-day moving average, 50- and 200-day simple moving averages, daily
      return. Prices are reals; floating point is not modelled. */
  datatype FeatureRow = FeatureRow(
    close: real, volume: real, volatility: real,
    maClose: real, sma50: real, sma200: real, dailyReturn: real)

  /** The four trained artifacts of one instrument. The scalers act row by
      row; the predictor maps one window to one detrended, scaled price. */
  datatype Artifacts = Artifacts(
    scaleFeatures: FeatureRow -> FeatureRow,
    scaleDetrended: real -> real,
    unscaleDetrended: real -> real,
    trend: int -> real,
    predict: seq<FeatureRow> -> real)

  /** The window length the program uses. */
  const SeqLength: nat := 60

  /** `np.arange(lo, hi)`: the integers `lo, lo + 1, ..., hi - 1`, empty when
      `hi <= lo`. */
  function Arange(lo: int, hi: int): (r: seq<int>)
    ensures |r| == if lo < hi then hi - lo else 0
    ensures forall k :: 0 <= k < |r| ==> r[k] == lo + k
    decreases hi - lo
  {
    if lo < hi then [lo] + Arange(lo + 1, hi) else []
  }

  /** The offsets the trend is evaluated at when detrending: every row's own
      position `0 .. n - 1`. */
  function DetrendOffsets(n: nat): seq<int> {
    Arange(0, n)
  }

  /** The offsets the trend is evaluated at when it is added back to `p`
      predictions: the last `p` positions of an `n`-row table. */
  function AddBackOffsets(n: nat, p: nat): seq<int> {
    Arange(n - p, n)
  }

  function MapSeq<A, B>(f: A -> B, xs: seq<A>): (ys: seq<B>)
    ensures |ys| == |xs|
    ensures forall k :: 0 <= k < |xs| ==> ys[k] == f(xs[k])
  {
    seq(|xs|, k requires 0 <= k < |xs| => f(xs[k]))
  }

  /** The close price minus the trend at the row's own offset. */
  function Detrended(rows: seq<FeatureRow>, arts: Artifacts): (d: seq<real>)
    ensures |d| == |rows|
    ensures forall k :: 0 <= k < |rows| ==> d[k] == rows[k].close - arts.trend(k)
  {
    var trend := MapSeq(arts.trend, DetrendOffsets(|rows|));
    seq(|rows|, k requires 0 <= k < |rows| => rows[k].close - trend[k])
  }

  function ScaledFeatures(rows: seq<FeatureRow>, arts: Artifacts): seq<FeatureRow> {
    MapSeq(arts.scaleFeatures, rows)
  }

  function ScaledDetrended(rows: seq<FeatureRow>, arts: Artifacts): seq<real> {
    MapSeq(arts.scaleDetrended, Detrended(rows, arts))
  }

  /** The predictor's output for every window, brought back to detrended
      price units. */
  function PredictedDetrended(rows: seq<FeatureRow>, arts: Artifacts, seqLength: nat): seq<real> {
    MapSeq((w: seq<FeatureRow>) => arts.unscaleDetrended(arts.predict(w)),
           Windows(ScaledFeatures(rows, arts), seqLength))
  }

  /** The absolute predicted prices: each detrended prediction plus the trend
      at its add-back offset. Prediction `k` comes from the window of rows
      `[k, k + seqLength)` and gets the trend of row `seqLength + k`, the row
      its window's target was taken from. */
  function PredictedPrices(rows: seq<FeatureRow>, arts: Artifacts, seqLength: nat): (r: seq<real>)
    ensures |r| == WindowCount(|rows|, seqLength)
    ensures forall k :: 0 <= k < |r| ==>
              r[k] == arts.unscaleDetrended(arts.predict(ScaledFeatures(rows, arts)[k..k + seqLength]))
                      + arts.trend(seqLength + k)
  {
    var detrended := PredictedDetrended(rows, arts, seqLength);
    var trend := MapSeq(arts.trend, AddBackOffsets(|rows|, |detrended|));
    seq(|detrended|, k requires 0 <= k < |detrended| => detrended[k] + trend[k])
  }

  /** `features[close].iloc[seqLength:]`: the close prices from row
      `seqLength` on, with their dates. */
  function ActualPrices(table: Series<FeatureRow>, seqLength: nat): (a: Series<real>)
    requires table.Valid()
    ensures a.Valid()
    ensures |a.index| == WindowCount(|table.index|, seqLength)
    ensures forall k :: 0 <= k < |a.index| ==>
              a.index[k] == table.index[seqLength + k] && a.values[k] == table.values[seqLength + k].close
  {
    if seqLength <= |table.index| then
      Series(table.index[seqLength..], MapSeq((row: FeatureRow) => row.close, table.values[seqLength..]))
    else Series([], [])
  }

  /** `pd.Series(values, index=index)`: raises when the lengths differ. */
  function Reindex<V>(values: seq<V>, index: seq<Date>): (r: Result<Series<V>>)
    ensures r.Success? <==> |values| == |index|
    ensures r.Failure? ==> r.error == LengthMismatch(|values|, |index|)
    ensures r.Success? ==> r.value.Valid() && r.value.index == index && r.value.values == values
  {
    if |values| == |index| then Success(Series(index, values))
    else Failure(LengthMismatch(|values|, |index|))
  }

  /** The two series the chart plots. */
  datatype Chart = Chart(actual: Series<real>, predicted: Series<real>)

  /** One run of the pipeline on an instrument's feature table, restricted to
      the dates in `[startDate, endDate]`. A table of at most `seqLength` rows
      gives the predictor an empty batch, which it rejects. Otherwise the run
      does not raise: the predictions are exactly as many as the actual
      prices, and every filtered date is a date of the actual prices. */
  function Forecast(table: Series<FeatureRow>, arts: Artifacts, seqLength: nat,
                    startDate: Date, endDate: Date): (r: Result<Chart>)
    requires table.Valid()
    ensures r.Success? <==> seqLength < |table.index|
    ensures r.Failure? ==> r.error == EmptyBatch
    ensures r.Success? ==> r.value.actual.Valid() && r.value.predicted.Valid()
  {
    if WindowCount(|table.index|, seqLength) == 0 then Failure(EmptyBatch)
    else
      var actual := ActualPrices(table, seqLength);
      var kept := FilterIndex(actual.index, startDate, endDate);
      match Loc(actual, kept)
      case Failure(e) => Failure(e)
      case Success(actualFiltered) =>
        match Reindex(PredictedPrices(table.values, arts, seqLength), actual.index)
        case Failure(e) => Failure(e)
        case Success(predicted) =>
          match Loc(predicted, kept)
          case Failure(e) => Failure(e)
          case Success(predictedFiltered) => Success(Chart(actualFiltered, predictedFiltered))
  }

  /** The predictions re-indexed onto the dates of the actual prices pair up
      one to one: the re-indexing never raises, and row `k` is the date of
      table row `seqLength + k` with prediction `k`. */
  lemma ReindexPairsPredictions(table: Series<FeatureRow>, arts: Artifacts, seqLength: nat)
    requires table.Valid()
    ensures var r := Reindex(PredictedPrices(table.values, arts, seqLength), ActualPrices(table, seqLength).index);
            && r.Success?
            && |r.value.index| == |r.value.values| == WindowCount(|table.index|, seqLength)
            && forall k :: 0 <= k < |r.value.index| ==>
                 r.value.index[k] == table.index[seqLength + k]
                 && r.value.values[k] == PredictedPrices(table.values, arts, seqLength)[k]
  {
  }

  /** The call `create_sequences(scaled_features, scaled_detrended, seq_length)`:
      the two inputs have one row per table row, so it never raises, and the
      target of window `k` is the scaled detrended close of row
      `seqLength + k`, detrended with the trend at that same offset. */
  method SequencesOf(rows: seq<FeatureRow>, arts: Artifacts, seqLength: nat)
    returns (xs: seq<seq<FeatureRow>>, ys: seq<real>)
    ensures xs == Windows(ScaledFeatures(rows, arts), seqLength)
    ensures |ys| == |xs| == WindowCount(|rows|, seqLength)
    ensures forall k :: 0 <= k < |ys| ==>
              seqLength + k < |rows|
              && ys[k] == arts.scaleDetrended(rows[seqLength + k].close - arts.trend(seqLength + k))
  {
    var r := CreateSequences(ScaledFeatures(rows, arts), ScaledDetrended(rows, arts), seqLength);
    xs := r.value.windows;
    ys := r.value.targets;
  }

  /** The add-back offsets are the rows after the first window: `[seqLength, n)`
      when the table is longer than a window and nothing otherwise. Offset `k`
      of the add-back is the detrending offset of row `seqLength + k`. */
  lemma OffsetsCoincide(n: nat, seqLength: nat)
    ensures AddBackOffsets(n, WindowCount(n, seqLength)) == if n > seqLength then Arange(seqLength, n) else []
    ensures forall k :: 0 <= k < WindowCount(n, seqLength) ==>
              AddBackOffsets(n, WindowCount(n, seqLength))[k] == seqLength + k
              && DetrendOffsets(n)[seqLength + k] == seqLength + k
  {
    if n > seqLength {
      assert WindowCount(n, seqLength) == n - seqLength;
      assert AddBackOffsets(n, n - seqLength) == Arange(seqLength, n);
      forall k | 0 <= k < WindowCount(n, seqLength)
        ensures AddBackOffsets(n, WindowCount(n, seqLength))[k] == seqLength + k
        ensures DetrendOffsets(n)[seqLength + k] == seqLength + k
      {
        assert Arange(seqLength, n)[k] == seqLength + k;
      }
    } else {
      assert WindowCount(n, seqLength) == 0;
      assert AddBackOffsets(n, 0) == Arange(n, n) == [];
    }
  }

  /** Prediction `k`, the target of window `k` and actual price `k` all
      belong to row `seqLength + k`: the prediction is made from the rows
      just before it and gets that row's trend, and the actual price is that
      row's close under that row's date. */
  lemma PredictionAlignment(table: Series<FeatureRow>, arts: Artifacts, seqLength: nat, k: nat)
    requires table.Valid()
    requires k < |PredictedPrices(table.values, arts, seqLength)|
    ensures |PredictedPrices(table.values, arts, seqLength)| == |ActualPrices(table, seqLength).values|
    ensures seqLength + k < |table.values|
    ensures Windows(ScaledFeatures(table.values, arts), seqLength)[k]
            == MapSeq(arts.scaleFeatures, table.values[k..seqLength + k])
    ensures ScaledDetrended(table.values, arts)[seqLength + k]
            == arts.scaleDetrended(table.values[seqLength + k].close - arts.trend(seqLength + k))
    ensures PredictedPrices(table.values, arts, seqLength)[k]
            == arts.unscaleDetrended(arts.predict(Windows(ScaledFeatures(table.values, arts), seqLength)[k]))
               + arts.trend(seqLength + k)
    ensures AddBackOffsets(|table.values|, |PredictedPrices(table.values, arts, seqLength)|)[k] == seqLength + k
    ensures ActualPrices(table, seqLength).index[k] == table.index[seqLength + k]
    ensures ActualPrices(table, seqLength).values[k] == table.values[seqLength + k].close
  {
    var prices := PredictedPrices(table.values, arts, seqLength);
    assert |prices| == WindowCount(|table.values|, seqLength);
    OffsetsCoincide(|table.values|, seqLength);
    WindowOfScaledRows(table.values, arts, seqLength, k);
  }

  /** Window `k` of the scaled features is the scaled rows `[k, k + seqLength)`. */
  lemma WindowOfScaledRows(rows: seq<FeatureRow>, arts: Artifacts, seqLength: nat, k: nat)
    requires k < WindowCount(|rows|, seqLength)
    ensures Windows(ScaledFeatures(rows, arts), seqLength)[k] == MapSeq(arts.scaleFeatures, rows[k..seqLength + k])
  {
    var scaled := ScaledFeatures(rows, arts);
    assert Windows(scaled, seqLength)[k] == scaled[k..seqLength + k];
  }

  /** A suffix of an increasing index is increasing. */
  lemma ActualIndexIncreasing(table: Series<FeatureRow>, seqLength: nat)
    requires table.Valid() && StrictlyIncreasing(table.index)
    ensures StrictlyIncreasing(ActualPrices(table, seqLength).index)
  {
  }

  /** A suffix of an index without repeated dates has none either. */
  lemma ActualIndexDistinct(table: Series<FeatureRow>, seqLength: nat)
    requires table.Valid() && Distinct(table.index)
    ensures Distinct(ActualPrices(table, seqLength).index)
  {
  }

  /** With no repeated date in the index and more rows than a window, the
      chart is the actual prices and the re-indexed predictions, each
      restricted to the selected dates; with fewer rows the run raises. */
  lemma ForecastIsFilteredSeries(table: Series<FeatureRow>, arts: Artifacts, seqLength: nat,
                                 startDate: Date, endDate: Date)
    requires table.Valid() && Distinct(table.index)
    ensures var actual := ActualPrices(table, seqLength);
            var predicted := Series(actual.index, PredictedPrices(table.values, arts, seqLength));
            Forecast(table, arts, seqLength, startDate, endDate)
            == if seqLength < |table.index|
               then Success(Chart(FilterSeries(actual, startDate, endDate), FilterSeries(predicted, startDate, endDate)))
               else Failure(EmptyBatch)
  {
    var actual := ActualPrices(table, seqLength);
    var predicted := Series(actual.index, PredictedPrices(table.values, arts, seqLength));
    ActualIndexDistinct(table, seqLength);
    LocOfFilteredIndex(actual, startDate, endDate);
    LocOfFilteredIndex(predicted, startDate, endDate);
  }

  /** Row by row, the chart pairs each selected date with its actual close
      and with the prediction made for that same row: point `k` is table row
      `seqLength + j` for the `k`-th kept position `j`. The two series share
      their dates, every date lies in the range, and no date of the range
      from row `seqLength` on is missing. */
  lemma {:induction false} ForecastAligned(table: Series<FeatureRow>, arts: Artifacts, seqLength: nat,
                                           startDate: Date, endDate: Date)
    requires table.Valid() && Distinct(table.index)
    ensures Forecast(table, arts, seqLength, startDate, endDate).Success? ==>
            var chart := Forecast(table, arts, seqLength, startDate, endDate).value;
            var kept := KeptPositions(ActualPrices(table, seqLength).index, startDate, endDate);
            && chart.actual.index == chart.predicted.index
            && |chart.actual.index| == |kept|
            && forall k :: 0 <= k < |kept| ==>
                 var j := kept[k];
                 && seqLength + j < |table.index|
                 && chart.actual.index[k] == table.index[seqLength + j]
                 && startDate <= chart.actual.index[k] <= endDate
                 && chart.actual.values[k] == table.values[seqLength + j].close
                 && chart.predicted.values[k] == PredictedPrices(table.values, arts, seqLength)[j]
    ensures Forecast(table, arts, seqLength, startDate, endDate).Success? ==>
            var chart := Forecast(table, arts, seqLength, startDate, endDate).value;
            forall j :: seqLength <= j < |table.index| && startDate <= table.index[j] <= endDate ==>
              table.index[j] in chart.actual.index
  {
    var actual := ActualPrices(table, seqLength);
    var predicted := Series(actual.index, PredictedPrices(table.values, arts, seqLength));
    ForecastIsFilteredSeries(table, arts, seqLength, startDate, endDate);
    FilterSeriesAtKeptPositions(actual, startDate, endDate);
    FilterSeriesAtKeptPositions(predicted, startDate, endDate);
  }

  /** Filtering the plotted series again with the same dates changes nothing. */
  lemma ForecastFilterIdempotent(table: Series<FeatureRow>, arts: Artifacts, seqLength: nat,
                                 startDate: Date, endDate: Date)
    requires table.Valid() && Distinct(table.index)
    ensures Forecast(table, arts, seqLength, startDate, endDate).Success? ==>
            var chart := Forecast(table, arts, seqLength, startDate, endDate).value;
            && FilterSeries(chart.actual, startDate, endDate) == chart.actual
            && FilterSeries(chart.predicted, startDate, endDate) == chart.predicted
  {
    var actual := ActualPrices(table, seqLength);
    var predicted := Series(actual.index, PredictedPrices(table.values, arts, seqLength));
    ForecastIsFilteredSeries(table, arts, seqLength, startDate, endDate);
    FilterSeriesIdempotent(actual, startDate, endDate);
    FilterSeriesIdempotent(predicted, startDate, endDate);
  }

  /** A table of exactly one row more than the window gives one window, one
      prediction, and one actual price, all for the last row's date. */
  lemma OneRowPastTheWindow(table: Series<FeatureRow>, arts: Artifacts)
    requires table.Valid() && |table.index| == SeqLength + 1
    ensures |Windows(ScaledFeatures(table.values, arts), SeqLength)| == 1
    ensures |PredictedPrices(table.values, arts, SeqLength)| == 1
    ensures ActualPrices(table, SeqLength).index == [table.index[SeqLength]]
    ensures PredictedPrices(table.values, arts, SeqLength)[0]
            == arts.unscaleDetrended(arts.predict(ScaledFeatures(table.values, arts)[..SeqLength]))
               + arts.trend(SeqLength)
  {
  }

  /** A date range that ends before the first date plots two empty series,
      unless the table is too short to predict anything at all. */
  lemma RangeBeforeFirstDate(table: Series<FeatureRow>, arts: Artifacts, seqLength: nat,
                             startDate: Date, endDate: Date)
    requires table.Valid() && StrictlyIncreasing(table.index)
    requires table.index != [] && endDate < table.index[0]
    ensures Forecast(table, arts, seqLength, startDate, endDate)
            == if seqLength < |table.index| then Success(Chart(Series([], []), Series([], [])))
               else Failure(EmptyBatch)
  {
    var actual := ActualPrices(table, seqLength);
    ForecastIsFilteredSeries(table, arts, seqLength, startDate, endDate);
    FilterOutsideIsEmpty(actual.index, startDate, endDate);
  }

  /** A fitted scaler of the detrended close, with its inverse. */
  datatype DetrendedScalerPair = DetrendedScalerPair(scale: real -> real, unscale: real -> real)

  /** The loaded artifacts, each under the variable name it is loaded into. */
  datatype ArtifactStore = ArtifactStore(
    featureScalers: map<string, FeatureRow -> FeatureRow>,
    detrendedScalers: map<string, DetrendedScalerPair>,
    trendModels: map<string, int -> real>,
    models: map<string, seq<FeatureRow> -> real>)

  /** The feature tables, each under the close and volume columns it is
      derived from. */
  type FeatureTables = map<(string, string), Series<FeatureRow>>

  /** `store` holds every artifact `b` names, each in its role. */
  predicate HoldsArtifacts(store: ArtifactStore, b: Bundle) {
    && b.scaler in store.featureScalers
    && b.scalerDetrended in store.detrendedScalers
    && b.trendModel in store.trendModels
    && b.model in store.models
  }

  /** `tables` holds a well-formed feature table for the columns `b` names. */
  predicate HoldsTable(tables: FeatureTables, b: Bundle) {
    (b.closeColumn, b.volumeColumn) in tables && tables[(b.closeColumn, b.volumeColumn)].Valid()
  }

  /** The state after start-up: all eight artifacts are loaded, and the
      feature table of each instrument's columns is built. */
  predicate Loaded(store: ArtifactStore, tables: FeatureTables) {
    && HoldsArtifacts(store, BundleOf(Mastercard)) && HoldsArtifacts(store, BundleOf(Visa))
    && HoldsTable(tables, BundleOf(Mastercard)) && HoldsTable(tables, BundleOf(Visa))
  }

  /** The artifacts a run uses: the ones stored under the names `b` selects. */
  function ArtifactsOf(store: ArtifactStore, b: Bundle): Artifacts
    requires HoldsArtifacts(store, b)
  {
    Artifacts(store.featureScalers[b.scaler],
              store.detrendedScalers[b.scalerDetrended].scale,
              store.detrendedScalers[b.scalerDetrended].unscale,
              store.trendModels[b.trendModel],
              store.models[b.model])
  }

  /** The feature table a run uses: the one built from the columns `b` selects. */
  function TableOf(tables: FeatureTables, b: Bundle): Series<FeatureRow>
    requires HoldsTable(tables, b)
  {
    tables[(b.closeColumn, b.volumeColumn)]
  }

  /** After start-up, whatever the option, the selected names are all there. */
  lemma LoadedHoldsSelection(store: ArtifactStore, tables: FeatureTables, option: string)
    requires Loaded(store, tables)
    ensures HoldsArtifacts(store, Select(option)) && HoldsTable(tables, Select(option))
  {
  }

  /** One interaction with the dashboard: the selector names the columns and
      artifacts, and the pipeline runs on the table and the artifacts stored
      under those names, with the program's window length. It yields a chart
      exactly when that table is longer than a window. */
  function Dashboard(store: ArtifactStore, tables: FeatureTables, option: string,
                     startDate: Date, endDate: Date): (r: Result<Chart>)
    requires HoldsArtifacts(store, Select(option)) && HoldsTable(tables, Select(option))
    ensures r.Success? <==> SeqLength < |TableOf(tables, Select(option)).index|
    ensures r.Failure? ==> r.error == EmptyBatch
  {
    var b := Select(option);
    Forecast(TableOf(tables, b), ArtifactsOf(store, b), SeqLength, startDate, endDate)
  }

  /** Two stores, and two sets of tables, that agree on every artifact and
      every table whose names carry instrument `i`'s suffix. */
  ghost predicate AgreeOn(store1: ArtifactStore, store2: ArtifactStore,
                          tables1: FeatureTables, tables2: FeatureTables, i: Instrument) {
    && (forall name :: name in store1.featureScalers && name in store2.featureScalers && OfInstrument(name, i) ==>
          store1.featureScalers[name] == store2.featureScalers[name])
    && (forall name :: name in store1.detrendedScalers && name in store2.detrendedScalers && OfInstrument(name, i) ==>
          store1.detrendedScalers[name] == store2.detrendedScalers[name])
    && (forall name :: name in store1.trendModels && name in store2.trendModels && OfInstrument(name, i) ==>
          store1.trendModels[name] == store2.trendModels[name])
    && (forall name :: name in store1.models && name in store2.models && OfInstrument(name, i) ==>
          store1.models[name] == store2.models[name])
    && (forall key :: key in tables1 && key in tables2 && OfInstrument(key.0, i) && OfInstrument(key.1, i) ==>
          tables1[key] == tables2[key])
  }

  /** Every name the selector picks carries the selected instrument's suffix. */
  lemma SelectedNamesAreOwn(option: string)
    ensures var b := Select(option);
            && OfInstrument(b.closeColumn, b.instrument) && OfInstrument(b.volumeColumn, b.instrument)
            && OfInstrument(b.scaler, b.instrument) && OfInstrument(b.scalerDetrended, b.instrument)
            && OfInstrument(b.trendModel, b.instrument) && OfInstrument(b.model, b.instrument)
  {
    var b := Select(option);
    assert Items(b)[0] == b.closeColumn && Items(b)[1] == b.volumeColumn;
    assert Items(b)[2] == b.scaler && Items(b)[3] == b.scalerDetrended;
    assert Items(b)[4] == b.trendModel && Items(b)[5] == b.model;
  }

  /** A run reads nothing of the other instrument: stores and tables that
      agree on the names carrying the selected instrument's suffix give the
      same result, whatever they hold under the other instrument's names. */
  lemma DashboardNeverCrossesInstruments(store1: ArtifactStore, store2: ArtifactStore,
                                         tables1: FeatureTables, tables2: FeatureTables,
                                         option: string, startDate: Date, endDate: Date)
    requires HoldsArtifacts(store1, Select(option)) && HoldsTable(tables1, Select(option))
    requires HoldsArtifacts(store2, Select(option)) && HoldsTable(tables2, Select(option))
    requires AgreeOn(store1, store2, tables1, tables2, Select(option).instrument)
    ensures Dashboard(store1, tables1, option, startDate, endDate) == Dashboard(store2, tables2, option, startDate, endDate)
  {
    var b := Select(option);
    SelectedNamesAreOwn(option);
    assert ArtifactsOf(store1, b) == ArtifactsOf(store2, b);
    assert TableOf(tables1, b) == TableOf(tables2, b);
  }
}

=== FILE: results.dfy ===
/** Success/failure results for the operations of the dashboard pipeline that
    raise in the dashboard (an out-of-range position, a missing label, a
    length mismatch, an empty batch), instead of preconditions that would
    forbid them. */
module Results {

  /** The exceptions the modelled pipeline can raise. */
  datatype Error =
    | IndexError(index: int, length: nat)      // positional access past the end
    | KeyError(key: int)                       // a label that the index does not hold
    | LengthMismatch(valueCount: nat, indexCount: nat)  // values and index differ in length
    | EmptyBatch                               // the trained predictor given no windows at all

  datatype Result<+T> = Success(value: T) | Failure(error: Error) {

    predicate IsFailure() {
      Failure?
    }

    function PropagateFailure<U>(): Result<U>
      requires Failure?
    {
      Failure(error)
    }

    function Extract(): T
      requires Success?
    {
      value
    }
  }
}

=== FILE: timeseries.dfy ===
/** Date-indexed series: the shape of a pandas Series or of a one-column
    frame, with its index of dates and its values kept side by side. Dates
    are day ordinals. */
module TimeSeries {

  type Date = int

  datatype Series<V> = Series(index: seq<Date>, values: seq<V>) {

    /** Every value has exactly one index label. */
    predicate Valid() {
      |index| == |values|
    }

    function Length(): nat {
      |index|
    }
  }

  /** The index of the price table: one row per trading day, no duplicates. */
  predicate StrictlyIncreasing(dates: seq<Date>) {
    forall i, j :: 0 <= i < j < |dates| ==> dates[i] < dates[j]
  }

  /** No date occurs twice. */
  predicate Distinct(dates: seq<Date>) {
    forall i, j :: 0 <= i < j < |dates| ==> dates[i] != dates[j]
  }

  /** `a` can be obtained from `b` by deleting elements, keeping the order. */
  predicate IsSubsequence<T(==)>(a: seq<T>, b: seq<T>)
    decreases |b|
  {
    if a == [] then true
    else if b == [] then false
    else (a[0] == b[0] && IsSubsequence(a[1..], b[1..])) || IsSubsequence(a, b[1..])
  }
}

=== FILE: windowing.dfy ===
/** The windowing stage: `create_sequences` slices a feature table into
    overlapping windows of `seqLength` consecutive rows and pairs each window
    with the target value of the row that follows it. */
module Windowing {
  import opened Results

  /** How many windows a table of `n` rows yields: `range(n - seqLength)`
      is empty when the difference is zero or negative. */
  function WindowCount(n: nat, seqLength: nat): nat {
    if n > seqLength then n - seqLength else 0
  }

  /** Reference definition of the windows, built one row at a time: the first
      window is the table's first `seqLength` rows, the rest are the windows
      of the table without its first row. */
  function Windows<T>(features: seq<T>, seqLength: nat): (ws: seq<seq<T>>)
    ensures |ws| == WindowCount(|features|, seqLength)
    ensures forall i :: 0 <= i < |ws| ==> ws[i] == features[i..i + seqLength]
    decreases |features|
  {
    if |features| <= seqLength then []
    else
      var rest := Windows(features[1..], seqLength);
      assert forall i :: 0 <= i < |rest| ==> rest[i] == features[i + 1..i + 1 + seqLength];
      [features[..seqLength]] + rest
  }

  /** The pair of arrays `create_sequences` returns: the windows `X` and the
      targets `y`. */
  datatype Sequences<T, U> = Sequences(windows: seq<seq<T>>, targets: seq<U>)

  /** `create_sequences(features, target, seq_length)`, loop for loop. Window
      `i` is paired with `target[i + seqLength]`; when `target` is shorter
      than `features` that access runs past its end and the call raises. */
  method CreateSequences<T, U>(features: seq<T>, target: seq<U>, seqLength: nat)
    returns (r: Result<Sequences<T, U>>)
    ensures r.Failure? <==> seqLength < |features| && |target| < |features|
    ensures r.Failure? ==>
              r.error == IndexError(if seqLength < |target| then |target| else seqLength, |target|)
    ensures r.Success? ==> r.value.windows == Windows(features, seqLength)
    ensures r.Success? ==> |r.value.targets| == |r.value.windows|
    ensures r.Success? ==>
              forall i :: 0 <= i < |r.value.targets| ==>
                i + seqLength < |target| && r.value.targets[i] == target[i + seqLength]
  {
    var xs: seq<seq<T>> := [];
    var ys: seq<U> := [];
    var n := WindowCount(|features|, seqLength);
    var i := 0;
    while i < n
      invariant 0 <= i <= n
      invariant xs == Windows(features, seqLength)[..i]
      invariant |ys| == i
      invariant forall j :: 0 <= j < i ==> j + seqLength < |target| && ys[j] == target[j + seqLength]
      invariant i > 0 ==> i + seqLength <= |target|
    {
      xs := xs + [features[i..i + seqLength]];
      if i + seqLength >= |target| {
        return Failure(IndexError(i + seqLength, |target|));
      }
      ys := ys + [target[i + seqLength]];
      i := i + 1;
    }
    assert xs == Windows(features, seqLength);
    return Success(Sequences(xs, ys));
  }

  /** Consecutive windows share all but one row: window `i` without its first
      row is window `i + 1` without its last row. */
  lemma ConsecutiveWindowsOverlap<T>(features: seq<T>, seqLength: nat, i: nat)
    requires 1 <= seqLength
    requires i + 1 < |Windows(features, seqLength)|
    ensures Windows(features, seqLength)[i][1..] == Windows(features, seqLength)[i + 1][..seqLength - 1]
  {
    var ws := Windows(features, seqLength);
    assert ws[i][1..] == features[i + 1..i + seqLength];
  }

  /** The row a window's target comes from is the row right after the
      window: appending it to window `i` gives the contiguous rows
      `[i, i + seqLength]`, and that row always exists. */
  lemma TargetRowFollowsWindow<T>(features: seq<T>, seqLength: nat, i: nat)
    requires i < |Windows(features, seqLength)|
    ensures i + seqLength < |features|
    ensures Windows(features, seqLength)[i] + [features[i + seqLength]] == features[i..i + seqLength + 1]
  {
  }

  /** With no more rows than the window length there is nothing to predict,
      and no error either. */
  lemma ShortTableHasNoWindows<T>(features: seq<T>, seqLength: nat)
    ensures Windows(features, seqLength) == [] <==> |features| <= seqLength
  {
  }
}
